=== FILE: README.md ===
# AEM email → Adobe Journey Optimizer export, modelled in Dafny

This project models the export pipeline of the AEM email components. The pipeline renders an authored page to HTML, inlines its styles, and posts the result to Adobe Journey Optimizer (AJO) as an email template or a message. The repository holds three generations of this pipeline, and each is modelled as it stands:

- **Current design**
  - `commands/ExportToAjoCommand` reads the request parameters and calls the exporter once.
  - `services/impl/AjoExporterImpl` renders, inlines, then calls the connector.
  - `services/impl/AjoConnectorImpl` builds the template POST, sends it on a lazily created shared HTTP client and classifies the response.
- **Intermediate design**
  - `impl/EmailContentRendererImpl` renders a page with its styles inlined.
  - `impl/EmailContentExporterImpl` exports as `export(html, name, description)`, on a client of its own per call.
- **Original monolith**: `ExportToAjoCommand` in the `ajo` package renders the page itself. It then posts a template or a message, chosen by the `type` parameter, and never reads the response status.

## How the model is built

- **Collaborators are function parameters.** These are the Sling request processor, the styles inliner, HttpClient's `execute`, the client's `close`, the client builder and `I18n.get`. The processor, `execute`, the entity read and `close` return a value or a Java exception (`Result`). The inliner, the builder and `I18n.get` return plain values.
- **Every pipeline step that calls collaborators returns its calls, in order, with how it ended:** a `Run`, or for the connector a `Step` that also carries the new state. The connector's client accessors return the new state directly. Sequencing is stated over that trace: render before inline before export, at most once each, nothing after a failed render.
- **Java values**
  - A Java `String` reference is `JString = Null | Str(s)`.
  - String concatenation renders `null` as `"null"` (`JavaLang.Concat`).
  - Exceptions carry their class and nullable message.
  - `AjoException` is the single error kind, with the fixed messages "Error while rendering HTML", "Error while exporting to AJO" and "Bad response received from AJO: " + reason phrase.
- **Payloads are JSON trees.** Each payload has a decoder, and both directions of the round trip are proved. org.json's `put(key, null)` removes the key. So a template payload drops `name` or `description` when the request parameter is absent.
- **The connector's state** is `Connector(config, httpClient: Option<Client(id, closed)>)`. The lifecycle functions (`GetHttpClient`, `SetHttpClient`, `CreateTemplate`, `Deactivate`) return the new state.
- **Behaviours of the code worth knowing.**
  - An absent `name` or `description` is not sent as an empty string: org.json's `put(key, null)` drops the key.
  - `deactivate` on a never-used connector throws a NullPointerException (see Findings).
  - The monolith never reads the response status, for templates and messages alike.

## Model

| member | source | states |
|---|---|---|
| JavaLang.Concat | bundles/core/src/main/java/com/adobe/cq/email/core/components/ajo/services/impl/AjoConnectorImpl.java:122 | Java `+` keeps the prefix and appends the reference's text, or "null" for a null reference |
| JavaLang.ConcatCannotTellNull | bundles/core/src/main/java/com/adobe/cq/email/core/components/ajo/services/impl/AjoConnectorImpl.java:122 | a null reason phrase and the text "null" give the same bad-response message |
| JavaLang.ConcatInjective | bundles/core/src/main/java/com/adobe/cq/email/core/components/ajo/services/impl/AjoConnectorImpl.java:122 | with a fixed prefix, the appended text can be recovered from the message |
| Sling.GetParameter | bundles/core/src/main/java/com/adobe/cq/email/core/components/ajo/commands/ExportToAjoCommand.java:61-63 | a parameter reads as null exactly when it is absent or has no value, otherwise as its first value |
| Json.PutString | bundles/core/src/main/java/com/adobe/cq/email/core/components/ajo/services/impl/AjoConnectorImpl.java:112-113 | org.json `put` with a null value removes the key, otherwise it sets it, and leaves every other key unchanged |
| Json.GetPutString | bundles/core/src/main/java/com/adobe/cq/email/core/components/ajo/services/impl/AjoConnectorImpl.java:112-113 | reading a key back returns what `put` wrote, null included |
| Http.ExportHeaders | bundles/core/src/main/java/com/adobe/cq/email/core/components/ajo/services/impl/AjoConnectorImpl.java:101-106 | exactly five headers: the content type, `Authorization: Bearer` + token, and the API key, org id and sandbox name from config |
| Http.ExportHeadersDetermineConfig | bundles/core/src/main/java/com/adobe/cq/email/core/components/ajo/services/impl/AjoConnectorImpl.java:102-106 | equal headers imply equal configs: the headers hold the config and nothing else |
| Http.StatusCode | bundles/core/src/main/java/com/adobe/cq/email/core/components/ajo/commands/ExportToAjoCommand.java:67-70 | the status reply is 200 exactly on success and 500 otherwise |
| Rendering.PageRequest | bundles/core/src/main/java/com/adobe/cq/email/core/components/ajo/services/impl/AjoExporterImpl.java:72-77 | the render request is a GET for path + ".html" with no parameters, WCM mode DISABLED and a UTF-8 response |
| Rendering.PageRequestInjective | bundles/core/src/main/java/com/adobe/cq/email/core/components/ajo/services/impl/AjoExporterImpl.java:73 | different non-null page paths give different render requests |
| Rendering.PageRequestCannotTellNull | bundles/core/src/main/java/com/adobe/cq/email/core/components/ajo/services/impl/AjoExporterImpl.java:73 | a null path renders `null.html`, the same request as the path "null" |
| Ajo.TemplateExchangeOutcome | bundles/core/src/main/java/com/adobe/cq/email/core/components/ajo/services/impl/AjoConnectorImpl.java:120-126 | success iff the response came back with status exactly 200 and the client closed cleanly. Otherwise: a non-200 status gives the bad-response message with the reason phrase; an IOException gives the export message with its cause |
| Ajo.ExchangeFailureMessages | bundles/core/src/main/java/com/adobe/cq/email/core/components/ajo/services/impl/AjoConnectorImpl.java:122-126 | every failure message is the export message or starts with the bad-response prefix |
| Ajo.OnlyStatus200Succeeds | bundles/core/src/main/java/com/adobe/cq/email/core/components/ajo/services/impl/AjoConnectorImpl.java:121-123 | a response succeeds iff its status is 200: no other 2xx code passes |
| Payloads.TemplatePayload | bundles/core/src/main/java/com/adobe/cq/email/core/components/ajo/services/impl/AjoConnectorImpl.java:108-115 | keys are exactly type and template, plus name and description when not null; type is "email_html" and template is {html} |
| Payloads.TemplateRoundTrip | bundles/core/src/main/java/com/adobe/cq/email/core/components/ajo/services/impl/AjoConnectorImpl.java:108-115 | decoding a built template payload gives back name, description and html |
| Payloads.TemplatePayloadComplete | bundles/core/src/main/java/com/adobe/cq/email/core/components/ajo/services/impl/AjoConnectorImpl.java:108-115 | every document that decodes as a template payload is the payload built from its decoding |
| Payloads.MessagePayload | bundles/core/src/main/java/com/adobe/cq/email/core/components/ajo/ExportToAjoCommand.java:215-234 | keys are exactly name, brandingPresetId (the fixed preset id) and channels; channels.email.variants is a one-element array |
| Payloads.MessageHasOneDefaultVariant | bundles/core/src/main/java/com/adobe/cq/email/core/components/ajo/ExportToAjoCommand.java:218-226 | the single variant is named "default", has exactly its five keys and carries html.body |
| Payloads.MessageRoundTrip | bundles/core/src/main/java/com/adobe/cq/email/core/components/ajo/ExportToAjoCommand.java:215-234 | decoding a built message payload gives back name, subject, sender name, sender address and html |
| Payloads.MessagePayloadComplete | bundles/core/src/main/java/com/adobe/cq/email/core/components/ajo/ExportToAjoCommand.java:215-234 | every document that decodes as a message payload is the payload built from its decoding |
| AjoConnector.Activate | bundles/core/src/main/java/com/adobe/cq/email/core/components/ajo/services/impl/AjoConnectorImpl.java:89-92 | the constructor keeps the config, and the client field starts null |
| AjoConnector.GetHttpClient | bundles/core/src/main/java/com/adobe/cq/email/core/components/ajo/services/impl/AjoConnectorImpl.java:130-135 | returns the held client unchanged, or stores and returns the built one when the field is null |
| AjoConnector.GetHttpClientIdempotent | bundles/core/src/main/java/com/adobe/cq/email/core/components/ajo/services/impl/AjoConnectorImpl.java:130-135 | a second call returns the same client and leaves the state alone |
| AjoConnector.SetHttpClient | bundles/core/src/main/java/com/adobe/cq/email/core/components/ajo/services/impl/AjoConnectorImpl.java:137-139 | the field is overwritten and the config is kept |
| AjoConnector.GetAfterSet | bundles/core/src/main/java/com/adobe/cq/email/core/components/ajo/services/impl/AjoConnectorImpl.java:130-139 | a client installed by `setHttpClient` is what `getHttpClient` returns |
| AjoConnector.TemplatePost | bundles/core/src/main/java/com/adobe/cq/email/core/components/ajo/services/impl/AjoConnectorImpl.java:99-118 | the POST goes to the templates endpoint with the vendor content type, config headers and the template payload |
| AjoConnector.HeadersIgnoreArguments | bundles/core/src/main/java/com/adobe/cq/email/core/components/ajo/services/impl/AjoConnectorImpl.java:96-106 | the headers are the same for any name, description and content |
| AjoConnector.CreateTemplate | bundles/core/src/main/java/com/adobe/cq/email/core/components/ajo/services/impl/AjoConnectorImpl.java:96-128 | one POST on the held or built client, then that client is closed while the field keeps it; success iff status 200 and a clean close; an IOException from `execute` gives "Error while exporting to AJO" with it as cause; a non-200 status gives the bad-response message with the reason phrase and no cause, even when the close also fails; a 200 followed by a failing close gives "Error while exporting to AJO" with the close exception as cause |
| AjoConnector.TemplateExportExample | bundles/core/src/test/java/com/adobe/cq/email/core/components/ajo/services/impl/AjoConnectorImplTest.java:88-109 | the unit-test scenario: status 200 succeeds and the POST carries the expected payload tree and bearer header |
| AjoConnector.Deactivate | bundles/core/src/main/java/com/adobe/cq/email/core/components/ajo/services/impl/AjoConnectorImpl.java:141-148 | closes the held client, whatever its close throws; throws a NullPointerException exactly when no client is held |
| AjoConnector.DeactivateBeforeUseThrows | bundles/core/src/main/java/com/adobe/cq/email/core/components/ajo/services/impl/AjoConnectorImpl.java:144 | deactivating a connector that never obtained a client throws |
| AjoConnector.DeactivateGuarded | bundles/core/src/main/java/com/adobe/cq/email/core/components/ajo/services/impl/AjoConnectorImpl.java:141-148 | corrected close: a no-op on a fresh connector, and closes the held client otherwise |
| AjoConnector.DeactivateGuardedRefines | bundles/core/src/main/java/com/adobe/cq/email/core/components/ajo/services/impl/AjoConnectorImpl.java:141-148 | the corrected close agrees with the original wherever the original does not throw, and is idempotent |
| AjoConnector.Serve | bundles/core/src/main/java/com/adobe/cq/email/core/components/ajo/services/impl/AjoConnectorImpl.java:96-98 | driver for successive `createTemplate` calls on one connector: one client per POST; the first is the held client, or the built one when none is held; afterwards the field holds the last client used, closed |
| AjoConnector.ServeFromClosedClient | bundles/core/src/main/java/com/adobe/cq/email/core/components/ajo/services/impl/AjoConnectorImpl.java:130-135 | once the held client is closed, every later POST is sent on that same closed client |
| AjoConnector.ServeReusesClosedClient | bundles/core/src/main/java/com/adobe/cq/email/core/components/ajo/services/impl/AjoConnectorImpl.java:96-135 | the second call, and every later one, sends on the first call's client, now closed |
| AjoConnector.CreateTemplatePooled | bundles/core/src/main/java/com/adobe/cq/email/core/components/ajo/services/impl/AjoConnectorImpl.java:96-128 | corrected call: the same POST, success iff status 200, an IOException from `execute` gives "Error while exporting to AJO" with it as cause, a non-200 status gives the bad-response message with no cause; the pooled client is left open in the field |
| AjoConnector.ServePooled | bundles/core/src/main/java/com/adobe/cq/email/core/components/ajo/services/impl/AjoConnectorImpl.java:96-98 | driver for successive corrected calls: one client per POST; the first is the held or built client; afterwards the field holds the last client used, unclosed |
| AjoConnector.PooledServeUsesOpenClients | bundles/core/src/main/java/com/adobe/cq/email/core/components/ajo/services/impl/AjoConnectorImpl.java:130-135 | starting from no client or an open one, with an open built client, the corrected call never sends a POST on a closed client |
| AjoExporter.RenderHtml | bundles/core/src/main/java/com/adobe/cq/email/core/components/ajo/services/impl/AjoExporterImpl.java:70-83 | one processor call with the page request and the caller's resolver; a ServletException or IOException becomes "Error while rendering HTML" with its cause |
| AjoExporter.Export | bundles/core/src/main/java/com/adobe/cq/email/core/components/ajo/services/impl/AjoExporterImpl.java:63-68 | a failed render stops everything; otherwise the inliner gets the same resolver and the raw HTML, and the connector gets name, description and the inlined HTML; its outcome is returned |
| AjoExporter.ExportOrdering | bundles/core/src/main/java/com/adobe/cq/email/core/components/ajo/services/impl/AjoExporterImpl.java:64-68 | the calls are exactly the render alone when it fails, or the render, one inlining and one `createTemplate` when it succeeds; the connector gets the name, the description and the inliner's output for the rendered HTML |
| AjoExporter.NoExportWithoutRender | bundles/core/src/main/java/com/adobe/cq/email/core/components/ajo/services/impl/AjoExporterImpl.java:65-67 | after a failed render, neither the inliner nor the connector is called, and the failure is the render failure |
| AjoExporter.ConnectorOutcomePropagates | bundles/core/src/main/java/com/adobe/cq/email/core/components/ajo/services/impl/AjoExporterImpl.java:67 | an exception from the connector reaches the caller unchanged |
| ExportCommand.GetCommandName | bundles/core/src/main/java/com/adobe/cq/email/core/components/ajo/commands/ExportToAjoCommand.java:52-54 | the command name is "exportToAjo" |
| ExportCommand.PerformCommand | bundles/core/src/main/java/com/adobe/cq/email/core/components/ajo/commands/ExportToAjoCommand.java:56-72 | one exporter call with (templateName, templateDescription, path, resolver) from the request; success replies "Success!", an AjoException replies with its localized message |
| ExportCommand.StatusFollowsExporter | bundles/core/src/main/java/com/adobe/cq/email/core/components/ajo/commands/ExportToAjoCommand.java:67-70 | the reply is 200 iff the exporter returned normally, and 500 otherwise |
| ExportCommand.AbsentParametersForwarded | bundles/core/src/main/java/com/adobe/cq/email/core/components/ajo/commands/ExportToAjoCommand.java:61-65 | absent parameters are not rejected and reach the exporter as null |
| ExportCommand.RenderFailureReachesCaller | bundles/core/src/main/java/com/adobe/cq/email/core/components/ajo/commands/ExportToAjoCommand.java:68-70 | with the current exporter wired in, a failed render gives a failure reply with the localized render message |
| EmailContentRenderer.Render | bundles/core/src/main/java/com/adobe/cq/email/core/components/ajo/impl/EmailContentRendererImpl.java:50-63 | the page request goes to the processor with the caller's resolver; the result is the inliner's output for the raw body; a failure is wrapped, and the inliner is not called |
| EmailContentRenderer.RenderedContentIsInlined | bundles/core/src/main/java/com/adobe/cq/email/core/components/ajo/impl/EmailContentRendererImpl.java:59 | every successful render result is an output of the inliner |
| EmailContentExporter.TemplatePost | bundles/core/src/main/java/com/adobe/cq/email/core/components/ajo/impl/EmailContentExporterImpl.java:82-101 | the POST goes to the templates endpoint with the vendor content type, config headers and the template payload |
| EmailContentExporter.Export | bundles/core/src/main/java/com/adobe/cq/email/core/components/ajo/impl/EmailContentExporterImpl.java:79-111 | one POST on a client built for the call, which is then closed; success iff status 200 and a clean close; an IOException from `execute` gives "Error while exporting to AJO" with it as cause; a non-200 status gives the bad-response message with no cause; a 200 followed by a failing close gives "Error while exporting to AJO" with the close exception as cause |
| EmailContentExporter.ArgumentOrder | bundles/core/src/main/java/com/adobe/cq/email/core/components/ajo/impl/EmailContentExporterImpl.java:79-98 | html goes to template.html, name to name and description to description |
| EmailContentExporter.NoStateBetweenCalls | bundles/core/src/main/java/com/adobe/cq/email/core/components/ajo/impl/EmailContentExporterImpl.java:81 | the outcome depends only on this call's exchange, so no client state carries over |
| LegacyExportCommand.GetCommandName | bundles/core/src/main/java/com/adobe/cq/email/core/components/ajo/ExportToAjoCommand.java:119-121 | the command name is "exportToAjo" |
| LegacyExportCommand.RenderHtml | bundles/core/src/main/java/com/adobe/cq/email/core/components/ajo/ExportToAjoCommand.java:152-162 | the page request comes first, then inlining with the same resolver; a processor exception propagates unwrapped |
| LegacyExportCommand.TemplatePost | bundles/core/src/main/java/com/adobe/cq/email/core/components/ajo/ExportToAjoCommand.java:164-189 | the POST goes to the templates endpoint with the vendor content type, config headers and a template payload built from the first parameter values |
| LegacyExportCommand.MessagePost | bundles/core/src/main/java/com/adobe/cq/email/core/components/ajo/ExportToAjoCommand.java:198-237 | the POST goes to the messages endpoint with "application/json", config headers and the message payload |
| LegacyExportCommand.TemplateFlowPayload | bundles/core/src/main/java/com/adobe/cq/email/core/components/ajo/ExportToAjoCommand.java:166-186 | the template payload decodes to the request's name, description and the rendered HTML |
| LegacyExportCommand.MessageFlowPayload | bundles/core/src/main/java/com/adobe/cq/email/core/components/ajo/ExportToAjoCommand.java:200-234 | the message payload decodes to the request's name, subject, sender name, sender address and the rendered HTML |
| LegacyExportCommand.SendAndClose | bundles/core/src/main/java/com/adobe/cq/email/core/components/ajo/ExportToAjoCommand.java:191-195 | execute, read the entity, close: success iff all three work; the client is closed only when execute and the read succeed; which exception a failure carries is stated by SendAndCloseFailures |
| LegacyExportCommand.SendAndCloseFailures | bundles/core/src/main/java/com/adobe/cq/email/core/components/ajo/ExportToAjoCommand.java:191-195 | a failed send carries the exception actually thrown: `execute`'s, else the entity read's, else the close's |
| LegacyExportCommand.ExportFailuresCarryThrown | bundles/core/src/main/java/com/adobe/cq/email/core/components/ajo/ExportToAjoCommand.java:164-196 | in both the template flow and the message flow (:198-244), a failure carries the IOException that `execute`, the entity read or the close threw |
| LegacyExportCommand.ExportAsTemplate | bundles/core/src/main/java/com/adobe/cq/email/core/components/ajo/ExportToAjoCommand.java:164-196 | sends the template POST first, on a newly built client; success iff execute, the entity read and the close all succeed; the client is closed iff execute and the read succeed; which exception a failure carries is stated by ExportFailuresCarryThrown |
| LegacyExportCommand.ExportAsMessage | bundles/core/src/main/java/com/adobe/cq/email/core/components/ajo/ExportToAjoCommand.java:198-244 | sends the message POST first, on a newly built client; success iff execute, the entity read and the close all succeed; the client is closed iff execute and the read succeed; which exception a failure carries is stated by ExportFailuresCarryThrown |
| LegacyExportCommand.PerformCommand | bundles/core/src/main/java/com/adobe/cq/email/core/components/ajo/ExportToAjoCommand.java:123-145 | rendering comes first; a render exception gives a failure reply with its localized message and nothing is exported; a success reply always says "Success!" |
| LegacyExportCommand.SentPost | bundles/core/src/main/java/com/adobe/cq/email/core/components/ajo/ExportToAjoCommand.java:133-137 | the template POST goes out iff `type` is "template"; any other value, null included, sends the message POST; the headers carry the chosen flow's content type, and the payload decodes to the request's fields and the HTML |
| LegacyExportCommand.PerformCommandAfterRender | bundles/core/src/main/java/com/adobe/cq/email/core/components/ajo/ExportToAjoCommand.java:129-144 | after a successful render, the calls are those of sending the chosen POST; its success replies "Success!" and any IOException from it replies with that exception's localized message |
| LegacyExportCommand.ExactlyOneFlow | bundles/core/src/main/java/com/adobe/cq/email/core/components/ajo/ExportToAjoCommand.java:129-137 | the calls are render, inline, then exactly one POST, of the shape `type` selects |
| LegacyExportCommand.SuccessIgnoresStatus | bundles/core/src/main/java/com/adobe/cq/email/core/components/ajo/ExportToAjoCommand.java:139-144 | after rendering, success iff execute, the entity read and the close all succeed, whatever the status |
| LegacyExportCommand.StatusNeverInspected | bundles/core/src/main/java/com/adobe/cq/email/core/components/ajo/ExportToAjoCommand.java:191-195 | two responses that differ only in status line give identical outcomes |
| LegacyExportCommand.ClientLeaksWhenExecuteFails | bundles/core/src/main/java/com/adobe/cq/email/core/components/ajo/ExportToAjoCommand.java:191-195 | an IOException from execute is the outcome, and the client is never closed |

## Findings

| source | as written | input that shows it | evidently intended | confidence | as-written member | corrected member |
|---|---|---|---|---|---|---|
| bundles/core/src/main/java/com/adobe/cq/email/core/components/ajo/services/impl/AjoConnectorImpl.java:98 | `createTemplate` opens `getHttpClient()` in a try-with-resources. So it closes the shared client on exit, and the `httpClient` field keeps referencing it | two successive `createTemplate` calls on one connector: the second sends its POST on the client the first one closed | the pooled client stays open across calls and is closed only by `deactivate` | medium; not executed | AjoConnector.ServeReusesClosedClient | AjoConnector.PooledServeUsesOpenClients |
| bundles/core/src/main/java/com/adobe/cq/email/core/components/ajo/services/impl/AjoConnectorImpl.java:144 | `deactivate` calls `httpClient.close()` with no null check | `deactivate` on a connector that never obtained or was never given a client | deactivating a never-used connector does nothing | high; not executed | AjoConnector.DeactivateBeforeUseThrows | AjoConnector.DeactivateGuarded |

## Left out

- Foreign calls are parameters of the model, with no behaviour of their own. This covers `RequestResponseFactory`, `SlingRequestProcessor`, `StylesInlinerService`, HttpClient's builder, `execute` and `close`, `EntityUtils.toString` and `I18n.get`.
- JSON text: org.json's `toString`, escaping and key order are library behaviour. Payloads are compared as trees.
- Bytes and encodings: UTF-8 decoding of the render output and the `StringEntity` encoding are not modelled. HTML is an opaque string, and the inliner's output is taken to be non-null. A null `content` argument to `createTemplate`, or a null `html` argument to `export`, is not modelled either: org.json's `put` would then send `template: {}`.
- The response's own `close` in the inner try-with-resources is taken never to throw. A failing client `close` is modelled.
- Unchecked exceptions are not modelled. These include the IllegalStateException a shut-down connection pool raises, `EntityUtils.toString` on a null entity, and a configuration left null before activation. Each escapes the commands uncaught.
- JSONException: none of the `put` calls can raise it, since their keys are non-null literals and their values strings or objects. So no modelled collaborator produces one.
- OSGi/SCR annotations, configuration defaults, activation wiring and logging are not modelled. Configuration is an immutable record.
- `AllowedClientLibs` is a UI datasource servlet with no pipeline logic.
- Concurrency: the model is single-threaded, so the shared client field has no racing writers.
- The monolith's missing parameters: `requestParams.get(...)[0]` on an absent parameter throws an uncaught NullPointerException. The model takes parameter presence as a precondition, and only when rendering has succeeded.
- The intermediate design's command, which would pair `EmailContentRenderer` with `EmailContentExporter`, is not part of this model. Its test builds the command from a renderer and an exporter, a constructor the monolith's source does not declare.
- LegacyExportCommand.PerformCommand: its own contract states only the render phase and the success message. The export phase is stated by PerformCommandAfterRender, ExactlyOneFlow and SuccessIgnoresStatus, which keeps each proof small.

=== FILE: ajo.dfy ===
/**
 * The shared error vocabulary of the export package: the single `AjoException` kind,
 * its fixed messages, and the classification of a template POST's response.
 */
module Ajo {
  import opened Wrappers
  import opened JavaLang
  import opened Http

  /** `AjoException`: a message (null for the no-argument constructor) and an optional cause. */
  datatype AjoException = AjoException(message: JString, cause: Option<Exception>)

  const RENDER_ERROR := "Error while rendering HTML"
  const EXPORT_ERROR := "Error while exporting to AJO"
  const BAD_RESPONSE := "Bad response received from AJO: "

  const TEMPLATES_ENDPOINT := "https://platform-stage.adobe.io/journey/authoring/message/templates"
  const TEMPLATES_CONTENT_TYPE := "application/vnd.adobe.cjm.template.v1+json"

  /** The exception a failed render is wrapped into, with the cause kept. */
  function RenderFailure(e: ProcessFailure): AjoException
  {
    AjoException(Str(RENDER_ERROR), Some(e))
  }

  /**
   * How a template POST ends, given what `execute` did and whether closing the client
   * (the try-with-resources exit) threw. A non-200 status raises the bad-response exception,
   * which is not caught and wins over a failing close; an IOException from `execute` or from
   * the close is caught and wrapped.
   */
  function TemplateExchangeOutcome(response: Result<Response, IoFailure>, closeFailure: Option<IoFailure>)
    : (r: Outcome<AjoException>)
    ensures r.Pass? <==> response.Ok? && response.value.status == SC_OK && closeFailure.None?
    ensures response.Err? ==> r == Fail(AjoException(Str(EXPORT_ERROR), Some(response.error)))
    ensures response.Ok? && response.value.status != SC_OK ==>
      r == Fail(AjoException(Str(Concat(BAD_RESPONSE, response.value.reason)), None))
    ensures response.Ok? && response.value.status == SC_OK && closeFailure.Some? ==>
      r == Fail(AjoException(Str(EXPORT_ERROR), Some(closeFailure.value)))
  {
    match response
    case Err(e) => Fail(AjoException(Str(EXPORT_ERROR), Some(e)))
    case Ok(res) =>
      if res.status != SC_OK then
        Fail(AjoException(Str(Concat(BAD_RESPONSE, res.reason)), None))
      else
        match closeFailure
        case Some(e) => Fail(AjoException(Str(EXPORT_ERROR), Some(e)))
        case None => Pass
  }

  /** Every failure of a template POST carries one of the two fixed message prefixes. */
  lemma ExchangeFailureMessages(response: Result<Response, IoFailure>, closeFailure: Option<IoFailure>)
    requires TemplateExchangeOutcome(response, closeFailure).Fail?
    ensures var m := TemplateExchangeOutcome(response, closeFailure).error.message;
      m.Str? && (m.value == EXPORT_ERROR || m.value[..|BAD_RESPONSE|] == BAD_RESPONSE)
  {
  }

  /** Success is exactly status 200: no other code, 2xx or not, passes, whatever its reason phrase. */
  lemma OnlyStatus200Succeeds(status: int, reason: JString, entity: Result<string, IoFailure>)
    ensures TemplateExchangeOutcome(Ok(Response(status, reason, entity)), None).Pass? <==> status == 200
  {
  }
}

=== FILE: ajo_connector.dfy ===
/**
 * `AjoConnectorImpl`: builds the template POST, sends it on a lazily created, shared
 * HTTP client and classifies the response; plus the client's lifecycle
 * (`getHttpClient`, `setHttpClient`, `deactivate`).
 */
module AjoConnector {
  import opened Wrappers
  import opened JavaLang
  import opened Json
  import opened Http
  import opened Trace
  import opened Ajo
  import opened Payloads

  /** The component's state: its configuration and the `httpClient` field (null until first use). */
  datatype Connector = Connector(config: Config, httpClient: Option<Client>)

  /** The state after one `createTemplate` call, the calls it made and how it ended. */
  datatype Step = Step(connector: Connector, calls: seq<Call>, result: Outcome<AjoException>)

  /** The constructor: it keeps the configuration and leaves the client field null. */
  function Activate(config: Config): (c: Connector)
    ensures c.config == config && c.httpClient.None?
  {
    Connector(config, None)
  }

  /**
   * `getHttpClient`: returns the held client; only when the field is null does it store and
   * return `built`, the client `HttpClientBuilder.create().build()` produces.
   */
  function GetHttpClient(c: Connector, built: Client): (r: (Connector, Client))
    ensures r.0.config == c.config
    ensures r.0.httpClient == Some(r.1)
    ensures c.httpClient.Some? ==> r.0 == c && r.1 == c.httpClient.value
    ensures c.httpClient.None? ==> r.1 == built
  {
    match c.httpClient
    case Some(client) => (c, client)
    case None => (c.(httpClient := Some(built)), built)
  }

  /** Once a client is held, asking again hands back the same client and changes nothing. */
  lemma GetHttpClientIdempotent(c: Connector, built1: Client, built2: Client)
    ensures var (c1, client1) := GetHttpClient(c, built1);
      GetHttpClient(c1, built2) == (c1, client1)
  {
  }

  /** `setHttpClient`: overwrites the field, with null or with any client. */
  function SetHttpClient(c: Connector, client: Option<Client>): (r: Connector)
    ensures r.config == c.config && r.httpClient == client
  {
    c.(httpClient := client)
  }

  /** A client installed with `setHttpClient` is the one `getHttpClient` hands out; the builder is not used. */
  lemma GetAfterSet(c: Connector, client: Client, built: Client)
    ensures GetHttpClient(SetHttpClient(c, Some(client)), built).1 == client
  {
  }

  /** The POST `createTemplate` prepares: templates endpoint, five config headers, template payload. */
  function TemplatePost(config: Config, name: JString, description: JString, content: string): (p: HttpPost)
    ensures p.uri == TEMPLATES_ENDPOINT
    ensures p.headers == ExportHeaders(TEMPLATES_CONTENT_TYPE, config)
    ensures p.entity == TemplatePayload(TemplateFields(name, description, content))
  {
    HttpPost(TEMPLATES_ENDPOINT, ExportHeaders(TEMPLATES_CONTENT_TYPE, config),
             TemplatePayload(TemplateFields(name, description, content)))
  }

  /** Headers never depend on the call's arguments, only on the configuration. */
  lemma HeadersIgnoreArguments(config: Config, n1: JString, d1: JString, h1: string,
                                n2: JString, d2: JString, h2: string)
    ensures TemplatePost(config, n1, d1, h1).headers == TemplatePost(config, n2, d2, h2).headers
  {
  }

  /**
   * `createTemplate(name, description, content)`: obtains the client, sends one POST on it,
   * and closes that client on every path (try-with-resources) while the field keeps
   * referencing it. `closeFailure` is what the client's `close` throws, if anything.
   */
  function CreateTemplate(c: Connector, name: JString, description: JString, content: string,
                          built: Client, execute: Execute, closeFailure: Option<IoFailure>): (r: Step)
    ensures var client := if c.httpClient.Some? then c.httpClient.value else built;
      var post := TemplatePost(c.config, name, description, content);
      && r.calls == [Execute(client, post), CloseClient(client)]
      && r.connector == Connector(c.config, Some(client.(closed := true)))
      && (r.result.Pass? <==> execute(client, post).Ok? && execute(client, post).value.status == SC_OK
                              && closeFailure.None?)
      && (execute(client, post).Err? ==>
            r.result == Fail(AjoException(Str(EXPORT_ERROR), Some(execute(client, post).error))))
      && (execute(client, post).Ok? && execute(client, post).value.status != SC_OK ==>
            r.result == Fail(AjoException(Str(Concat(BAD_RESPONSE, execute(client, post).value.reason)), None)))
      && (execute(client, post).Ok? && execute(client, post).value.status == SC_OK && closeFailure.Some? ==>
            r.result == Fail(AjoException(Str(EXPORT_ERROR), Some(closeFailure.value))))
  {
    var (c1, client) := GetHttpClient(c, built);
    var post := TemplatePost(c.config, name, description, content);
    var response := execute(client, post);
    Step(c1.(httpClient := Some(client.(closed := true))),
         [Execute(client, post), CloseClient(client)],
         TemplateExchangeOutcome(response, closeFailure))
  }

  /** The scenario of the component's unit test: status 200 on a set client succeeds with the expected payload. */
  lemma TemplateExportExample(execute: Execute)
    requires forall client, post :: execute(client, post) == Ok(Response(200, Str(""), Ok("")))
    ensures var config := Config("key", "org", "sandbox", "token");
      var c := SetHttpClient(Activate(config), Some(Client(7, false)));
      var r := CreateTemplate(c, Str("template name"), Str("template description"), "html",
                              Client(8, false), execute, None);
      && r.result == Pass
      && r.calls[0].post.entity == JObj(map[
           "template" := JObj(map["html" := JStr("html")]),
           "name" := JStr("template name"),
           "description" := JStr("template description"),
           "type" := JStr("email_html")])
      && r.calls[0].post.headers[AUTHORIZATION] == "Bearer token"
  {
    var config := Config("key", "org", "sandbox", "token");
    var c := SetHttpClient(Activate(config), Some(Client(7, false)));
    var r := CreateTemplate(c, Str("template name"), Str("template description"), "html",
                            Client(8, false), execute, None);
    var e := r.calls[0].post.entity;
    assert e.fields.Keys == {"type", "template", "name", "description"};
  }

  /**
   * `deactivate`: closes the held client, swallowing an IOException from `close`. The field
   * is dereferenced without a null check, so a connector that never obtained a client throws.
   */
  function Deactivate(c: Connector, closeFailure: Option<IoFailure>): (r: Result<Connector, Exception>)
    ensures r.Err? <==> c.httpClient.None?
    ensures r.Err? ==> r.error.kind == NullPointerException
    ensures r.Ok? ==> r.value == Connector(c.config, Some(c.httpClient.value.(closed := true)))
  {
    match c.httpClient
    case None => Err(Exception(NullPointerException, Null))
    case Some(client) => Ok(c.(httpClient := Some(client.(closed := true))))
  }

  /** Deactivating a connector that was never used throws instead of being a no-op. */
  lemma DeactivateBeforeUseThrows(config: Config, closeFailure: Option<IoFailure>)
    ensures Deactivate(Activate(config), closeFailure) == Err(Exception(NullPointerException, Null))
  {
  }

  /** Corrected `deactivate`: closes the held client if there is one, and is safe on a fresh connector. */
  function DeactivateGuarded(c: Connector, closeFailure: Option<IoFailure>): (r: Connector)
    ensures r.config == c.config
    ensures c.httpClient.None? ==> r == c
    ensures c.httpClient.Some? ==> r.httpClient == Some(c.httpClient.value.(closed := true))
  {
    match c.httpClient
    case None => c
    case Some(client) => c.(httpClient := Some(client.(closed := true)))
  }

  /** The corrected close agrees with the original wherever the original does not throw, and is idempotent. */
  lemma DeactivateGuardedRefines(c: Connector, f1: Option<IoFailure>, f2: Option<IoFailure>)
    ensures Deactivate(c, f1).Ok? ==> DeactivateGuarded(c, f2) == Deactivate(c, f1).value
    ensures DeactivateGuarded(DeactivateGuarded(c, f1), f2) == DeactivateGuarded(c, f1)
    ensures DeactivateGuarded(Activate(c.config), f1) == Activate(c.config)
  {
  }

  /** The arguments of one `createTemplate` call. */
  datatype Job = Job(name: JString, description: JString, content: string)

  /**
   * Runs `createTemplate` for each job in turn; returns the final state and the client each POST
   * was sent on. The first POST uses the held client, or the built one when none is held, and
   * afterwards the field holds the last client used, closed.
   */
  function Serve(c: Connector, jobs: seq<Job>, built: Client, execute: Execute,
                 closeFailure: Option<IoFailure>): (r: (Connector, seq<Client>))
    ensures |r.1| == |jobs|
    ensures r.0.config == c.config
    ensures |jobs| == 0 ==> r.0 == c
    ensures |jobs| > 0 ==> r.1[0] == (if c.httpClient.Some? then c.httpClient.value else built)
    ensures |jobs| > 0 ==> r.0.httpClient == Some(r.1[|jobs| - 1].(closed := true))
    decreases |jobs|
  {
    if |jobs| == 0 then (c, [])
    else
      var s := CreateTemplate(c, jobs[0].name, jobs[0].description, jobs[0].content, built, execute, closeFailure);
      var rest := Serve(s.connector, jobs[1..], built, execute, closeFailure);
      (rest.0, [s.calls[0].client] + rest.1)
  }

  /** Every client in the list has been closed. */
  predicate AllClosed(clients: seq<Client>)
  {
    forall i :: 0 <= i < |clients| ==> clients[i].closed
  }

  /** Every POST in the list went out on `client`. */
  predicate AllSentOn(clients: seq<Client>, client: Client)
  {
    forall i :: 0 <= i < |clients| ==> clients[i] == client
  }

  /** Once the held client has been closed, every later POST is sent on that same closed client. */
  lemma {:induction false} ServeFromClosedClient(c: Connector, jobs: seq<Job>, built: Client, execute: Execute,
                                                 closeFailure: Option<IoFailure>)
    requires c.httpClient.Some? && c.httpClient.value.closed
    ensures AllSentOn(Serve(c, jobs, built, execute, closeFailure).1, c.httpClient.value)
    ensures AllClosed(Serve(c, jobs, built, execute, closeFailure).1)
    decreases |jobs|
  {
    if |jobs| > 0 {
      var held := c.httpClient.value;
      var s := CreateTemplate(c, jobs[0].name, jobs[0].description, jobs[0].content, built, execute, closeFailure);
      assert s.calls[0].client == held;
      assert s.connector.httpClient == Some(held);
      var rest := Serve(s.connector, jobs[1..], built, execute, closeFailure);
      var used := Serve(c, jobs, built, execute, closeFailure).1;
      assert used == [held] + rest.1;
      ServeFromClosedClient(s.connector, jobs[1..], built, execute, closeFailure);
      forall i | 0 <= i < |used|
        ensures used[i] == held
      {
        if i > 0 {
          assert used[i] == rest.1[i - 1];
        }
      }
    }
  }

  /**
   * As written, the first `createTemplate` closes the shared client and keeps it, so every
   * following call sends its POST on that same client, now closed, whatever the responses were.
   */
  lemma {:induction false} ServeReusesClosedClient(c: Connector, jobs: seq<Job>, built: Client, execute: Execute,
                                                   closeFailure: Option<IoFailure>)
    requires |jobs| >= 2
    ensures var used := Serve(c, jobs, built, execute, closeFailure).1;
      AllSentOn(used[1..], used[0].(closed := true)) && AllClosed(used[1..])
  {
    var s := CreateTemplate(c, jobs[0].name, jobs[0].description, jobs[0].content, built, execute, closeFailure);
    var first := s.calls[0].client;
    assert s.connector.httpClient == Some(first.(closed := true));
    var rest := Serve(s.connector, jobs[1..], built, execute, closeFailure);
    var used := Serve(c, jobs, built, execute, closeFailure).1;
    assert used == [first] + rest.1;
    assert used[1..] == rest.1;
    ServeFromClosedClient(s.connector, jobs[1..], built, execute, closeFailure);
  }

  /** Corrected `createTemplate`: the pooled client stays open; only `deactivate` closes it. */
  function CreateTemplatePooled(c: Connector, name: JString, description: JString, content: string,
                                built: Client, execute: Execute): (r: Step)
    ensures var client := if c.httpClient.Some? then c.httpClient.value else built;
      var post := TemplatePost(c.config, name, description, content);
      && r.calls == [Execute(client, post)]
      && r.connector == Connector(c.config, Some(client))
      && (r.result.Pass? <==> execute(client, post).Ok? && execute(client, post).value.status == SC_OK)
      && (execute(client, post).Err? ==>
            r.result == Fail(AjoException(Str(EXPORT_ERROR), Some(execute(client, post).error))))
      && (execute(client, post).Ok? && execute(client, post).value.status != SC_OK ==>
            r.result == Fail(AjoException(Str(Concat(BAD_RESPONSE, execute(client, post).value.reason)), None)))
  {
    var (c1, client) := GetHttpClient(c, built);
    var post := TemplatePost(c.config, name, description, content);
    Step(c1, [Execute(client, post)], TemplateExchangeOutcome(execute(client, post), None))
  }

  /**
   * `Serve` with the corrected call: the first POST uses the held or the built client, and
   * afterwards the field holds the last client used, still open if it was.
   */
  function ServePooled(c: Connector, jobs: seq<Job>, built: Client, execute: Execute): (r: (Connector, seq<Client>))
    ensures |r.1| == |jobs|
    ensures r.0.config == c.config
    ensures |jobs| == 0 ==> r.0 == c
    ensures |jobs| > 0 ==> r.1[0] == (if c.httpClient.Some? then c.httpClient.value else built)
    ensures |jobs| > 0 ==> r.0.httpClient == Some(r.1[|jobs| - 1])
    decreases |jobs|
  {
    if |jobs| == 0 then (c, [])
    else
      var s := CreateTemplatePooled(c, jobs[0].name, jobs[0].description, jobs[0].content, built, execute);
      var rest := ServePooled(s.connector, jobs[1..], built, execute);
      (rest.0, [s.calls[0].client] + rest.1)
  }

  /** No client in the list has been closed. */
  predicate NoneClosed(clients: seq<Client>)
  {
    forall i :: 0 <= i < |clients| ==> !clients[i].closed
  }

  /** With the corrected call, a connector holding no client or an open one never sends on a closed client. */
  lemma {:induction false} PooledServeUsesOpenClients(c: Connector, jobs: seq<Job>, built: Client, execute: Execute)
    requires !built.closed
    requires c.httpClient.Some? ==> !c.httpClient.value.closed
    ensures NoneClosed(ServePooled(c, jobs, built, execute).1)
    decreases |jobs|
  {
    if |jobs| > 0 {
      var s := CreateTemplatePooled(c, jobs[0].name, jobs[0].description, jobs[0].content, built, execute);
      assert !s.calls[0].client.closed;
      assert s.connector.httpClient == Some(s.calls[0].client);
      var rest := ServePooled(s.connector, jobs[1..], built, execute);
      var used := ServePooled(c, jobs, built, execute).1;
      assert used == [s.calls[0].client] + rest.1;
      PooledServeUsesOpenClients(s.connector, jobs[1..], built, execute);
      forall i | 0 <= i < |used|
        ensures !used[i].closed
      {
        if i > 0 {
          assert used[i] == rest.1[i - 1];
        }
      }
    }
  }
}

=== FILE: ajo_exporter.dfy ===
/**
 * `AjoExporterImpl`: renders the page, inlines its styles and hands the result to the
 * connector service, strictly in that order and stopping at the first failure.
 */
module AjoExporter {
  import opened Wrappers
  import opened JavaLang
  import opened Sling
  import opened Rendering
  import opened Trace
  import opened Ajo

  /** The `AjoConnector` service as the exporter sees it: `createTemplate(name, description, content)`. */
  type ConnectorService = (JString, JString, string) -> Outcome<AjoException>

  /** `renderHtml`: the page's raw HTML, or the render failure wrapped with its cause. */
  function RenderHtml(process: Processor, path: JString, resolver: ResourceResolver)
    : (r: Run<Result<string, AjoException>>)
    ensures r.calls == [ProcessRequest(PageRequest(path), resolver)]
    ensures r.result.Ok? <==> process(PageRequest(path), resolver).Ok?
    ensures r.result.Ok? ==> r.result.value == process(PageRequest(path), resolver).value
    ensures r.result.Err? ==>
      r.result.error == AjoException(Str(RENDER_ERROR), Some(process(PageRequest(path), resolver).error))
  {
    var request := PageRequest(path);
    match process(request, resolver)
    case Ok(html) => Run([ProcessRequest(request, resolver)], Ok(html))
    case Err(e) => Run([ProcessRequest(request, resolver)], Err(RenderFailure(e)))
  }

  /**
   * `export(name, description, path, resolver)`: the render result goes through the inliner with
   * the same resolver, and the inliner's output, not the raw render, goes to the connector.
   */
  function Export(process: Processor, inline: Inliner, connector: ConnectorService,
                  name: JString, description: JString, path: JString, resolver: ResourceResolver)
    : (r: Run<Outcome<AjoException>>)
    ensures |r.calls| >= 1 && r.calls[0] == ProcessRequest(PageRequest(path), resolver)
    ensures process(PageRequest(path), resolver).Err? ==>
      |r.calls| == 1 && r.result == Fail(RenderFailure(process(PageRequest(path), resolver).error))
    ensures process(PageRequest(path), resolver).Ok? ==>
      var raw := process(PageRequest(path), resolver).value;
      && r.calls[1..] == [InlineStyles(resolver, raw), ConnectorCreateTemplate(name, description, inline(resolver, raw))]
      && r.result == connector(name, description, inline(resolver, raw))
  {
    var rendered := RenderHtml(process, path, resolver);
    match rendered.result
    case Err(e) => Run(rendered.calls, Fail(e))
    case Ok(html) =>
      var inlined := inline(resolver, html);
      Run(rendered.calls + [InlineStyles(resolver, html), ConnectorCreateTemplate(name, description, inlined)],
          connector(name, description, inlined))
  }

  /**
   * The calls of one export: the render alone, or the render, one inlining and one connector
   * call, in that order and nothing else. The connector only ever receives what the inliner
   * returned for what was rendered, and only after a successful render.
   */
  lemma ExportOrdering(process: Processor, inline: Inliner, connector: ConnectorService,
                       name: JString, description: JString, path: JString, resolver: ResourceResolver)
    ensures var calls := Export(process, inline, connector, name, description, path, resolver).calls;
      && (|calls| == 1 || |calls| == 3)
      && calls[0].ProcessRequest?
      && (|calls| == 1 <==> process(PageRequest(path), resolver).Err?)
      && (|calls| == 3 ==>
            && calls[1].InlineStyles? && calls[1].resolver == resolver
            && calls[2].ConnectorCreateTemplate?
            && calls[2].name == name && calls[2].description == description
            && calls[2].content == inline(resolver, calls[1].html)
            && process(PageRequest(path), resolver) == Ok(calls[1].html))
  {
  }

  /** A failed render never reaches the inliner or the connector, and the failure is the render's. */
  lemma NoExportWithoutRender(process: Processor, inline: Inliner, connector: ConnectorService,
                              name: JString, description: JString, path: JString, resolver: ResourceResolver)
    requires process(PageRequest(path), resolver).Err?
    ensures var r := Export(process, inline, connector, name, description, path, resolver);
      && (forall i :: 0 <= i < |r.calls| ==> !r.calls[i].InlineStyles? && !r.calls[i].ConnectorCreateTemplate?)
      && r.result.Fail? && r.result.error.message == Str(RENDER_ERROR)
  {
  }

  /** An exception from the connector reaches the caller unchanged; a normal return is a normal return. */
  lemma ConnectorOutcomePropagates(process: Processor, inline: Inliner, connector: ConnectorService,
                                   name: JString, description: JString, path: JString, resolver: ResourceResolver)
    requires process(PageRequest(path), resolver).Ok?
    ensures var raw := process(PageRequest(path), resolver).value;
      Export(process, inline, connector, name, description, path, resolver).result
        == connector(name, description, inline(resolver, raw))
  {
  }
}

=== FILE: content_exporter.dfy ===
/**
 * `impl/EmailContentExporterImpl`: the intermediate exporter. Same POST as the current
 * connector, but arguments arrive as (html, name, description) and every call builds
 * and closes a client of its own.
 */
module EmailContentExporter {
  import opened Wrappers
  import opened JavaLang
  import opened Json
  import opened Http
  import opened Trace
  import opened Ajo
  import opened Payloads

  /** The POST `export` prepares: templates endpoint, five config headers, template payload. */
  function TemplatePost(config: Config, html: string, name: JString, description: JString): (p: HttpPost)
    ensures p.uri == TEMPLATES_ENDPOINT
    ensures p.headers == ExportHeaders(TEMPLATES_CONTENT_TYPE, config)
    ensures p.entity == TemplatePayload(TemplateFields(name, description, html))
  {
    HttpPost(TEMPLATES_ENDPOINT, ExportHeaders(TEMPLATES_CONTENT_TYPE, config),
             TemplatePayload(TemplateFields(name, description, html)))
  }

  /**
   * `export(html, name, description)`: sends one POST on `newClient`, the client built for this
   * call, and closes it on every path; `closeFailure` is what that close throws, if anything.
   */
  function Export(config: Config, html: string, name: JString, description: JString,
                  newClient: Client, execute: Execute, closeFailure: Option<IoFailure>)
    : (r: Run<Outcome<AjoException>>)
    ensures var post := TemplatePost(config, html, name, description);
      && r.calls == [Execute(newClient, post), CloseClient(newClient)]
      && (r.result.Pass? <==> execute(newClient, post).Ok? && execute(newClient, post).value.status == SC_OK
                              && closeFailure.None?)
      && (execute(newClient, post).Err? ==> r.result == Fail(AjoException(Str(EXPORT_ERROR), Some(execute(newClient, post).error))))
      && (execute(newClient, post).Ok? && execute(newClient, post).value.status != SC_OK ==>
            r.result == Fail(AjoException(Str(Concat(BAD_RESPONSE, execute(newClient, post).value.reason)), None)))
      && (execute(newClient, post).Ok? && execute(newClient, post).value.status == SC_OK && closeFailure.Some? ==>
            r.result == Fail(AjoException(Str(EXPORT_ERROR), Some(closeFailure.value))))
  {
    var post := TemplatePost(config, html, name, description);
    Run([Execute(newClient, post), CloseClient(newClient)], TemplateExchangeOutcome(execute(newClient, post), closeFailure))
  }

  /** The argument order: html lands in `template.html`, name in `name`, description in `description`. */
  lemma ArgumentOrder(config: Config, html: string, name: JString, description: JString)
    ensures ParseTemplate(TemplatePost(config, html, name, description).entity)
      == Some(TemplateFields(name, description, html))
  {
    TemplateRoundTrip(TemplateFields(name, description, html));
  }

  /** Nothing persists between calls: the outcome depends only on this call's client and exchange. */
  lemma NoStateBetweenCalls(config: Config, html: string, name: JString, description: JString,
                            newClient: Client, e1: Execute, e2: Execute, closeFailure: Option<IoFailure>)
    requires e1(newClient, TemplatePost(config, html, name, description)) == e2(newClient, TemplatePost(config, html, name, description))
    ensures Export(config, html, name, description, newClient, e1, closeFailure)
         == Export(config, html, name, description, newClient, e2, closeFailure)
  {
  }
}

=== FILE: content_renderer.dfy ===
/** `impl/EmailContentRendererImpl`: renders a page and returns it with its styles inlined. */
module EmailContentRenderer {
  import opened Wrappers
  import opened JavaLang
  import opened Sling
  import opened Rendering
  import opened Trace
  import opened Ajo

  /**
   * `render(path, resolver)`: the page request goes to the processor with the caller's
   * resolver; its body, inlined with the same resolver, is the result. A processor failure
   * is wrapped with its cause and the inliner is not called.
   */
  function Render(process: Processor, inline: Inliner, path: JString, resolver: ResourceResolver)
    : (r: Run<Result<string, AjoException>>)
    ensures |r.calls| >= 1 && r.calls[0] == ProcessRequest(PageRequest(path), resolver)
    ensures r.result.Ok? <==> process(PageRequest(path), resolver).Ok?
    ensures r.result.Ok? ==>
      var raw := process(PageRequest(path), resolver).value;
      r.result.value == inline(resolver, raw) && r.calls == [r.calls[0], InlineStyles(resolver, raw)]
    ensures r.result.Err? ==>
      |r.calls| == 1 && r.result.error == RenderFailure(process(PageRequest(path), resolver).error)
  {
    var request := PageRequest(path);
    var calls := [ProcessRequest(request, resolver)];
    match process(request, resolver)
    case Ok(raw) => Run(calls + [InlineStyles(resolver, raw)], Ok(inline(resolver, raw)))
    case Err(e) => Run(calls, Err(RenderFailure(e)))
  }

  /** Whatever the renderer returns has been through the inliner: it is an output of `inline` for the caller's resolver. */
  lemma RenderedContentIsInlined(process: Processor, inline: Inliner, path: JString, resolver: ResourceResolver)
    requires Render(process, inline, path, resolver).result.Ok?
    ensures exists raw :: Render(process, inline, path, resolver).result.value == inline(resolver, raw)
  {
    var raw := process(PageRequest(path), resolver).value;
    assert Render(process, inline, path, resolver).result.value == inline(resolver, raw);
  }
}

=== FILE: export_command.dfy ===
/**
 * `commands/ExportToAjoCommand`: the WCM command that reads three request parameters, calls
 * the exporter once and turns its outcome into a status reply.
 */
module ExportCommand {
  import opened Wrappers
  import opened JavaLang
  import opened Sling
  import opened Http
  import opened Rendering
  import opened Trace
  import opened Ajo
  import AjoExporter

  const WCM_COMMAND_NAME := "exportToAjo"
  const PATH_PARAM := "path"
  const TEMPLATE_NAME_PARAM := "templateName"
  const TEMPLATE_DESCRIPTION_PARAM := "templateDescription"
  const SUCCESS_MESSAGE := "Success!"

  /** The `AjoExporter` service: `export(name, description, path, resolver)`. */
  type ExporterService = (JString, JString, JString, ResourceResolver) -> Outcome<AjoException>

  /** `getCommandName`: the name the command is registered under. */
  function GetCommandName(): (name: string)
    ensures name == "exportToAjo"
  {
    WCM_COMMAND_NAME
  }

  /**
   * `performCommand`: one exporter call with the request's parameters, unvalidated, in the order
   * (templateName, templateDescription, path, resolver); success replies "Success!", an
   * `AjoException` replies with its localized message. No `AjoException` escapes; unchecked
   * exceptions are not modelled.
   */
  function PerformCommand(exporter: ExporterService, i18n: Localizer, request: SlingRequest)
    : (r: Run<StatusResponse>)
    ensures var name := GetParameter(request, TEMPLATE_NAME_PARAM);
      var description := GetParameter(request, TEMPLATE_DESCRIPTION_PARAM);
      var path := GetParameter(request, PATH_PARAM);
      var outcome := exporter(name, description, path, request.resolver);
      && r.calls == [ExportTemplate(name, description, path, request.resolver)]
      && (r.result.success <==> outcome.Pass?)
      && (outcome.Pass? ==> r.result.message == Str(SUCCESS_MESSAGE))
      && (outcome.Fail? ==> r.result.message == i18n(request, outcome.error.message))
  {
    var name := GetParameter(request, TEMPLATE_NAME_PARAM);
    var description := GetParameter(request, TEMPLATE_DESCRIPTION_PARAM);
    var path := GetParameter(request, PATH_PARAM);
    var calls := [ExportTemplate(name, description, path, request.resolver)];
    match exporter(name, description, path, request.resolver)
    case Pass => Run(calls, StatusResponse(true, Str(SUCCESS_MESSAGE)))
    case Fail(e) => Run(calls, StatusResponse(false, i18n(request, e.message)))
  }

  /** The reply's HTTP status is 200 exactly when the exporter returned normally, and 500 otherwise. */
  lemma StatusFollowsExporter(exporter: ExporterService, i18n: Localizer, request: SlingRequest)
    ensures var outcome := exporter(GetParameter(request, TEMPLATE_NAME_PARAM),
                                    GetParameter(request, TEMPLATE_DESCRIPTION_PARAM),
                                    GetParameter(request, PATH_PARAM), request.resolver);
      var code := StatusCode(PerformCommand(exporter, i18n, request).result);
      (code == SC_OK <==> outcome.Pass?) && (outcome.Fail? ==> code == SC_INTERNAL_SERVER_ERROR)
  {
  }

  /** Absent parameters are not rejected: they reach the exporter as null. */
  lemma AbsentParametersForwarded(exporter: ExporterService, i18n: Localizer, resolver: ResourceResolver)
    ensures PerformCommand(exporter, i18n, SlingRequest(map[], resolver)).calls
      == [ExportTemplate(Null, Null, Null, resolver)]
  {
  }

  /**
   * Wired to `AjoExporterImpl`, a page that fails to render gives a 500 reply carrying the
   * localized render message, and nothing is sent to the connector.
   */
  lemma RenderFailureReachesCaller(process: Processor, inline: Inliner, connector: AjoExporter.ConnectorService,
                                   i18n: Localizer, request: SlingRequest)
    requires process(PageRequest(GetParameter(request, PATH_PARAM)), request.resolver).Err?
    ensures var exporter := (n, d, p, res) => AjoExporter.Export(process, inline, connector, n, d, p, res).result;
      PerformCommand(exporter, i18n, request).result == StatusResponse(false, i18n(request, Str(RENDER_ERROR)))
  {
  }
}

=== FILE: http.dfy ===
/** The HTTP vocabulary of the export: configuration, request headers, POSTs, responses, clients. */
module Http {
  import opened Wrappers
  import opened JavaLang
  import opened Json

  const CONTENT_TYPE := "Content-Type"
  const AUTHORIZATION := "Authorization"
  const API_KEY_HEADER := "x-api-key"
  const ORG_ID_HEADER := "x-gw-ims-org-id"
  const SANDBOX_NAME_HEADER := "x-sandbox-name"

  const SC_OK := 200
  const SC_INTERNAL_SERVER_ERROR := 500

  /** The tenant and credential settings every generation reads from its component configuration. */
  datatype Config = Config(apiKey: string, orgId: string, sandboxName: string, imsUserToken: string)

  /** An outbound POST: target URI, headers as set with `setHeader`, and the JSON entity. */
  datatype HttpPost = HttpPost(uri: string, headers: map<string, string>, entity: Json)

  /**
   * What `execute` hands back: the status line, and what reading the entity
   * with `EntityUtils.toString` would produce.
   */
  datatype Response = Response(status: int, reason: JString, entity: Result<string, IoFailure>)

  /** A `CloseableHttpClient` object: its identity and whether `close` has been called on it. */
  datatype Client = Client(id: nat, closed: bool)

  /** `CloseableHttpClient.execute`, a foreign call: a response, or an IOException. */
  type Execute = (Client, HttpPost) -> Result<Response, IoFailure>

  /** The five headers every export sets: the content type, the bearer token and three tenant headers. */
  function ExportHeaders(contentType: string, config: Config): (h: map<string, string>)
    ensures h.Keys == {CONTENT_TYPE, AUTHORIZATION, API_KEY_HEADER, ORG_ID_HEADER, SANDBOX_NAME_HEADER}
    ensures h[CONTENT_TYPE] == contentType
    ensures h[AUTHORIZATION] == "Bearer " + config.imsUserToken
    ensures h[API_KEY_HEADER] == config.apiKey
    ensures h[ORG_ID_HEADER] == config.orgId
    ensures h[SANDBOX_NAME_HEADER] == config.sandboxName
  {
    map[][CONTENT_TYPE := contentType]
         [AUTHORIZATION := "Bearer " + config.imsUserToken]
         [API_KEY_HEADER := config.apiKey]
         [ORG_ID_HEADER := config.orgId]
         [SANDBOX_NAME_HEADER := config.sandboxName]
  }

  /** The configuration can be read back from the headers: nothing else went into them. */
  lemma ExportHeadersDetermineConfig(contentType: string, c1: Config, c2: Config)
    requires ExportHeaders(contentType, c1) == ExportHeaders(contentType, c2)
    ensures c1 == c2
  {
    var h1, h2 := ExportHeaders(contentType, c1), ExportHeaders(contentType, c2);
    assert h1[AUTHORIZATION] == h2[AUTHORIZATION];
    assert c1.imsUserToken == h1[AUTHORIZATION][|"Bearer "|..];
  }

  /** The command's reply, as `HtmlStatusResponseHelper.createStatusResponse(success, message)` builds it. */
  datatype StatusResponse = StatusResponse(success: bool, message: JString)

  /** The HTTP status the status helper gives its reply: 200 for success, 500 for failure. */
  function StatusCode(r: StatusResponse): (code: int)
    ensures code == SC_OK <==> r.success
    ensures code == SC_OK || code == SC_INTERNAL_SERVER_ERROR
  {
    if r.success then SC_OK else SC_INTERNAL_SERVER_ERROR
  }
}

=== FILE: java.dfy ===
/** The few Java-language values the export pipeline passes around: nullable strings and exceptions. */
module JavaLang {
  import opened Wrappers

  /** A Java `String` reference: `null` or a character sequence. */
  datatype JString = Null | Str(value: string)

  /** The text Java's string concatenation appends for a reference: a null reference becomes "null". */
  function Text(s: JString): string
  {
    match s
    case Null => "null"
    case Str(v) => v
  }

  /** Java's `prefix + s` for a String reference `s`. */
  function Concat(prefix: string, s: JString): (r: string)
    ensures |r| >= |prefix| && r[..|prefix|] == prefix
    ensures s.Str? ==> r[|prefix|..] == s.value
    ensures s.Null? ==> r[|prefix|..] == "null"
  {
    prefix + Text(s)
  }

  /** A null reference and the four-letter string "null" concatenate to the same text. */
  lemma ConcatCannotTellNull(prefix: string)
    ensures Concat(prefix, Null) == Concat(prefix, Str("null"))
  {
  }

  /** Concatenation with a fixed prefix keeps the suffix recoverable. */
  lemma ConcatInjective(prefix: string, a: string, b: string)
    requires Concat(prefix, Str(a)) == Concat(prefix, Str(b))
    ensures a == b
  {
    assert a == Concat(prefix, Str(a))[|prefix|..];
  }

  /** The checked and unchecked exception classes the pipeline can meet. */
  datatype ExceptionKind = ServletException | IOException | JSONException | NullPointerException

  /** A thrown Java exception: its class and its (nullable) message. */
  datatype Exception = Exception(kind: ExceptionKind, message: JString)

  /** What `SlingRequestProcessor.processRequest` declares it may throw. */
  type ProcessFailure = e: Exception | e.kind == ServletException || e.kind == IOException
    witness Exception(IOException, Null)

  /** What HttpClient's `execute` and `close`, and `EntityUtils.toString`, declare they may throw. */
  type IoFailure = e: Exception | e.kind == IOException
    witness Exception(IOException, Null)
}

=== FILE: json.dfy ===
/** JSON documents as trees, and the one org.json mutation the payload builders use. */
module Json {
  import opened Wrappers
  import opened JavaLang

  /** A JSON value as far as the export payloads need it: strings, arrays and objects. */
  datatype Json = JStr(s: string) | JArr(items: seq<Json>) | JObj(fields: map<string, Json>)

  /**
   * org.json's `JSONObject.put(key, String value)`: a null value removes the key,
   * any other value replaces whatever the key held.
   */
  function PutString(fields: map<string, Json>, key: string, value: JString): (r: map<string, Json>)
    ensures key in r <==> value.Str?
    ensures value.Str? ==> r[key] == JStr(value.value)
    ensures forall k :: k in fields && k != key ==> k in r && r[k] == fields[k]
    ensures forall k :: k in r && k != key ==> k in fields
  {
    match value
    case Null => fields - {key}
    case Str(v) => fields[key := JStr(v)]
  }

  /** Reads back a member written with `PutString`: absent is null, a JSON string is that string. */
  function GetString(fields: map<string, Json>, key: string): (r: Option<JString>)
    ensures key !in fields ==> r == Some(Null)
    ensures r.Some? && r.value.Str? ==> key in fields && fields[key] == JStr(r.value.value)
    ensures key in fields && fields[key].JStr? ==> r == Some(Str(fields[key].s))
    ensures key in fields && !fields[key].JStr? ==> r.None?
  {
    if key !in fields then Some(Null)
    else match fields[key]
      case JStr(s) => Some(Str(s))
      case _ => None
  }

  /** Reading a member back returns exactly what `PutString` wrote, whether null or not. */
  lemma GetPutString(fields: map<string, Json>, key: string, value: JString)
    ensures GetString(PutString(fields, key, value), key) == Some(value)
  {
  }
}

=== FILE: legacy_command.dfy ===
/**
 * `ExportToAjoCommand` of the `ajo` package, the original monolith: it renders the page itself
 * and then posts either a template or a message, chosen by the `type` parameter. It wraps
 * nothing and never looks at the response status.
 */
module LegacyExportCommand {
  import opened Wrappers
  import opened JavaLang
  import opened Sling
  import opened Json
  import opened Http
  import opened Rendering
  import opened Trace
  import opened Payloads
  import Ajo

  const EXPORT_AS_TEMPLATE := "template"
  const TYPE_PARAM := "type"
  const PATH_PARAM := "path"
  const SUCCESS_MESSAGE := "Success!"

  const MESSAGES_ENDPOINT := "https://platform-stage.adobe.io/journey/authoring/message/messages"
  const MESSAGES_CONTENT_TYPE := "application/json"

  /** `getCommandName`: the name the command is registered under. */
  function GetCommandName(): (name: string)
    ensures name == "exportToAjo"
  {
    "exportToAjo"
  }

  /** `"template".equals(type)`: true only for that exact value, false for null. */
  predicate IsTemplateRequest(request: SlingRequest)
  {
    GetParameter(request, TYPE_PARAM) == Str(EXPORT_AS_TEMPLATE)
  }

  /** The parameters `exportAsTemplate` indexes with `[0]`. */
  predicate TemplateParamsPresent(params: map<string, seq<string>>)
  {
    HasParameter(params, "templateName") && HasParameter(params, "templateDescription")
  }

  /** The parameters `exportAsMessage` indexes with `[0]`. */
  predicate MessageParamsPresent(params: map<string, seq<string>>)
  {
    && HasParameter(params, "messageName") && HasParameter(params, "senderName")
    && HasParameter(params, "senderAddress") && HasParameter(params, "subject")
  }

  /** `renderHtml`: the page request, then inlining of its body; a processor failure propagates as is. */
  function RenderHtml(process: Processor, inline: Inliner, path: JString, resolver: ResourceResolver)
    : (r: Run<Result<string, ProcessFailure>>)
    ensures |r.calls| >= 1 && r.calls[0] == ProcessRequest(PageRequest(path), resolver)
    ensures r.result == (match process(PageRequest(path), resolver)
                         case Ok(raw) => Ok(inline(resolver, raw))
                         case Err(e) => Err(e))
    ensures r.result.Ok? ==> |r.calls| == 2 && r.calls[1].InlineStyles? && r.calls[1].resolver == resolver
    ensures r.result.Err? ==> |r.calls| == 1
  {
    var request := PageRequest(path);
    match process(request, resolver)
    case Ok(raw) => Run([ProcessRequest(request, resolver), InlineStyles(resolver, raw)], Ok(inline(resolver, raw)))
    case Err(e) => Run([ProcessRequest(request, resolver)], Err(e))
  }

  /** The template POST of `exportAsTemplate`: templates endpoint, vendor type, template payload. */
  function TemplatePost(config: Config, html: string, params: map<string, seq<string>>): (p: HttpPost)
    requires TemplateParamsPresent(params)
    ensures p.uri == Ajo.TEMPLATES_ENDPOINT
    ensures p.headers == ExportHeaders(Ajo.TEMPLATES_CONTENT_TYPE, config)
    ensures p.entity
      == TemplatePayload(TemplateFields(Str(params["templateName"][0]), Str(params["templateDescription"][0]), html))
  {
    var f := TemplateFields(Str(params["templateName"][0]), Str(params["templateDescription"][0]), html);
    HttpPost(Ajo.TEMPLATES_ENDPOINT, ExportHeaders(Ajo.TEMPLATES_CONTENT_TYPE, config), TemplatePayload(f))
  }

  /** The message POST of `exportAsMessage`: messages endpoint, `application/json`, message payload. */
  function MessagePost(config: Config, html: string, params: map<string, seq<string>>): (p: HttpPost)
    requires MessageParamsPresent(params)
    ensures p.uri == MESSAGES_ENDPOINT
    ensures p.headers == ExportHeaders(MESSAGES_CONTENT_TYPE, config)
    ensures p.entity == MessagePayload(MessageFields(params["messageName"][0], params["subject"][0],
      params["senderName"][0], params["senderAddress"][0], html))
  {
    var f := MessageFields(params["messageName"][0], params["subject"][0],
                           params["senderName"][0], params["senderAddress"][0], html);
    HttpPost(MESSAGES_ENDPOINT, ExportHeaders(MESSAGES_CONTENT_TYPE, config), MessagePayload(f))
  }

  /** The template flow sends the request's name and description, and the rendered HTML, as a template payload. */
  lemma TemplateFlowPayload(config: Config, html: string, params: map<string, seq<string>>)
    requires TemplateParamsPresent(params)
    ensures ParseTemplate(TemplatePost(config, html, params).entity)
      == Some(TemplateFields(Str(params["templateName"][0]), Str(params["templateDescription"][0]), html))
  {
    TemplateRoundTrip(TemplateFields(Str(params["templateName"][0]), Str(params["templateDescription"][0]), html));
  }

  /** The message flow sends the request's name, subject and sender, and the rendered HTML, as a message payload. */
  lemma MessageFlowPayload(config: Config, html: string, params: map<string, seq<string>>)
    requires MessageParamsPresent(params)
    ensures ParseMessage(MessagePost(config, html, params).entity) == Some(MessageFields(params["messageName"][0],
      params["subject"][0], params["senderName"][0], params["senderAddress"][0], html))
  {
    MessageRoundTrip(MessageFields(params["messageName"][0], params["subject"][0],
                                   params["senderName"][0], params["senderAddress"][0], html));
  }

  /**
   * The shared tail of both flows: `execute`, read the entity for the log line, `close`.
   * There is no try-with-resources: an exception from `execute` or from reading the entity
   * leaves the client unclosed. The status line is never read.
   */
  function SendAndClose(client: Client, post: HttpPost, execute: Execute, closeFailure: Option<IoFailure>)
    : (r: Run<Outcome<IoFailure>>)
    ensures r.calls == [Execute(client, post)] || r.calls == [Execute(client, post), CloseClient(client)]
    ensures r.result.Pass? <==> execute(client, post).Ok? && execute(client, post).value.entity.Ok? && closeFailure.None?
    ensures CloseClient(client) in r.calls <==> execute(client, post).Ok? && execute(client, post).value.entity.Ok?
  {
    match execute(client, post)
    case Err(e) => Run([Execute(client, post)], Fail(e))
    case Ok(res) =>
      match res.entity
      case Err(e) => Run([Execute(client, post)], Fail(e))
      case Ok(_) =>
        Run([Execute(client, post), CloseClient(client)],
            match closeFailure
            case Some(e) => Fail(e)
            case None => Pass)
  }

  /** `exportAsTemplate`: one template POST on a newly built client. */
  function ExportAsTemplate(config: Config, html: string, params: map<string, seq<string>>,
                            newClient: Client, execute: Execute, closeFailure: Option<IoFailure>)
    : (r: Run<Outcome<IoFailure>>)
    requires TemplateParamsPresent(params)
    ensures var post := TemplatePost(config, html, params);
      && |r.calls| >= 1 && r.calls[0] == Execute(newClient, post)
      && (r.result.Pass? <==> execute(newClient, post).Ok? && execute(newClient, post).value.entity.Ok?
                              && closeFailure.None?)
      && (CloseClient(newClient) in r.calls <==> execute(newClient, post).Ok? && execute(newClient, post).value.entity.Ok?)
  {
    SendAndClose(newClient, TemplatePost(config, html, params), execute, closeFailure)
  }

  /** `exportAsMessage`: one message POST on a newly built client. */
  function ExportAsMessage(config: Config, html: string, params: map<string, seq<string>>,
                           newClient: Client, execute: Execute, closeFailure: Option<IoFailure>)
    : (r: Run<Outcome<IoFailure>>)
    requires MessageParamsPresent(params)
    ensures var post := MessagePost(config, html, params);
      && |r.calls| >= 1 && r.calls[0] == Execute(newClient, post)
      && (r.result.Pass? <==> execute(newClient, post).Ok? && execute(newClient, post).value.entity.Ok?
                              && closeFailure.None?)
      && (CloseClient(newClient) in r.calls <==> execute(newClient, post).Ok? && execute(newClient, post).value.entity.Ok?)
  {
    SendAndClose(newClient, MessagePost(config, html, params), execute, closeFailure)
  }

  /** What the request must carry for `performCommand` not to throw a NullPointerException. */
  predicate ParamsPresentFor(process: Processor, request: SlingRequest)
  {
    process(PageRequest(GetParameter(request, PATH_PARAM)), request.resolver).Ok? ==>
      if IsTemplateRequest(request) then TemplateParamsPresent(request.params)
      else MessageParamsPresent(request.params)
  }

  /**
   * `performCommand`: render, then exactly one of the two exports; any ServletException,
   * IOException or JSONException becomes a failure reply with the localized exception message.
   */
  function PerformCommand(config: Config, process: Processor, inline: Inliner, i18n: Localizer,
                          request: SlingRequest, newClient: Client, execute: Execute,
                          closeFailure: Option<IoFailure>)
    : (r: Run<StatusResponse>)
    requires ParamsPresentFor(process, request)
    ensures var rendered := process(PageRequest(GetParameter(request, PATH_PARAM)), request.resolver);
      && |r.calls| >= 1 && r.calls[0] == ProcessRequest(PageRequest(GetParameter(request, PATH_PARAM)), request.resolver)
      && (rendered.Err? ==> r.calls == r.calls[..1] && r.result == StatusResponse(false, i18n(request, rendered.error.message)))
      && (r.result.success ==> r.result.message == Str(SUCCESS_MESSAGE))
  {
    var rendered := RenderHtml(process, inline, GetParameter(request, PATH_PARAM), request.resolver);
    match rendered.result
    case Err(e) => Run(rendered.calls, StatusResponse(false, i18n(request, e.message)))
    case Ok(html) =>
      var exported :=
        if IsTemplateRequest(request) then ExportAsTemplate(config, html, request.params, newClient, execute, closeFailure)
        else ExportAsMessage(config, html, request.params, newClient, execute, closeFailure);
      Run(rendered.calls + exported.calls,
          match exported.result
          case Pass => StatusResponse(true, Str(SUCCESS_MESSAGE))
          case Fail(e) => StatusResponse(false, i18n(request, e.message)))
  }

  /** The POST the command sends once the page has rendered: a template post exactly when `type` is "template". */
  function SentPost(config: Config, html: string, request: SlingRequest): (p: HttpPost)
    requires if IsTemplateRequest(request) then TemplateParamsPresent(request.params)
             else MessageParamsPresent(request.params)
    ensures p.uri == Ajo.TEMPLATES_ENDPOINT <==> IsTemplateRequest(request)
    ensures p.uri == MESSAGES_ENDPOINT <==> !IsTemplateRequest(request)
    ensures p.headers
      == ExportHeaders(if IsTemplateRequest(request) then Ajo.TEMPLATES_CONTENT_TYPE else MESSAGES_CONTENT_TYPE, config)
    ensures IsTemplateRequest(request) ==> ParseTemplate(p.entity) == Some(TemplateFields(
      Str(request.params["templateName"][0]), Str(request.params["templateDescription"][0]), html))
    ensures !IsTemplateRequest(request) ==> ParseMessage(p.entity) == Some(MessageFields(
      request.params["messageName"][0], request.params["subject"][0],
      request.params["senderName"][0], request.params["senderAddress"][0], html))
  {
    if IsTemplateRequest(request) then
      TemplateFlowPayload(config, html, request.params);
      TemplatePost(config, html, request.params)
    else
      MessageFlowPayload(config, html, request.params);
      MessagePost(config, html, request.params)
  }

  /**
   * Once the page has rendered, the command's calls are those of sending `SentPost`, and an
   * exception from sending it becomes a failure reply with its localized message.
   */
  lemma {:induction false} PerformCommandAfterRender(config: Config, process: Processor, inline: Inliner,
                                                     i18n: Localizer, request: SlingRequest, newClient: Client,
                                                     execute: Execute, closeFailure: Option<IoFailure>, raw: string)
    requires ParamsPresentFor(process, request)
    requires process(PageRequest(GetParameter(request, PATH_PARAM)), request.resolver) == Ok(raw)
    ensures var r := PerformCommand(config, process, inline, i18n, request, newClient, execute, closeFailure);
      var sent := SendAndClose(newClient, SentPost(config, inline(request.resolver, raw), request), execute, closeFailure);
      && r.calls == [ProcessRequest(PageRequest(GetParameter(request, PATH_PARAM)), request.resolver),
                     InlineStyles(request.resolver, raw)] + sent.calls
      && r.result == (match sent.result
                      case Pass => StatusResponse(true, Str(SUCCESS_MESSAGE))
                      case Fail(e) => StatusResponse(false, i18n(request, e.message)))
  {
    var path := GetParameter(request, PATH_PARAM);
    var html := inline(request.resolver, raw);
    var post := SentPost(config, html, request);
    var rendered := RenderHtml(process, inline, path, request.resolver);
    assert rendered.calls == [ProcessRequest(PageRequest(path), request.resolver), InlineStyles(request.resolver, raw)];
    var exported := SendAndClose(newClient, post, execute, closeFailure);
    if IsTemplateRequest(request) {
      assert exported == ExportAsTemplate(config, html, request.params, newClient, execute, closeFailure);
    } else {
      assert exported == ExportAsMessage(config, html, request.params, newClient, execute, closeFailure);
    }
  }

  /**
   * Rendering completes before any export; afterwards exactly one POST goes out, to the
   * templates endpoint when `type` is "template" and to the messages endpoint for any other
   * value, null included.
   */
  lemma {:induction false} ExactlyOneFlow(config: Config, process: Processor, inline: Inliner, i18n: Localizer,
                                          request: SlingRequest, newClient: Client, execute: Execute,
                                          closeFailure: Option<IoFailure>, raw: string)
    requires ParamsPresentFor(process, request)
    requires process(PageRequest(GetParameter(request, PATH_PARAM)), request.resolver) == Ok(raw)
    ensures var calls := PerformCommand(config, process, inline, i18n, request, newClient, execute, closeFailure).calls;
      && calls[..3] == [ProcessRequest(PageRequest(GetParameter(request, PATH_PARAM)), request.resolver),
                        InlineStyles(request.resolver, raw),
                        Execute(newClient, SentPost(config, inline(request.resolver, raw), request))]
      && forall i :: 3 <= i < |calls| ==> !calls[i].Execute?
  {
    PerformCommandAfterRender(config, process, inline, i18n, request, newClient, execute, closeFailure, raw);
    var calls := PerformCommand(config, process, inline, i18n, request, newClient, execute, closeFailure).calls;
    var sent := SendAndClose(newClient, SentPost(config, inline(request.resolver, raw), request), execute, closeFailure);
    forall i | 3 <= i < |calls|
      ensures !calls[i].Execute?
    {
      assert calls[i] == sent.calls[i - 2];
    }
  }

  /**
   * Once the page has rendered, the reply is a success exactly when the POST went out, its entity
   * could be read and the client closed cleanly: the response status plays no part.
   */
  lemma {:induction false} SuccessIgnoresStatus(config: Config, process: Processor, inline: Inliner,
                                                i18n: Localizer, request: SlingRequest, newClient: Client,
                                                execute: Execute, closeFailure: Option<IoFailure>, raw: string)
    requires ParamsPresentFor(process, request)
    requires process(PageRequest(GetParameter(request, PATH_PARAM)), request.resolver) == Ok(raw)
    ensures var post := SentPost(config, inline(request.resolver, raw), request);
      var r := PerformCommand(config, process, inline, i18n, request, newClient, execute, closeFailure);
      r.result.success <==> (execute(newClient, post).Ok? && execute(newClient, post).value.entity.Ok?
                             && closeFailure.None?)
  {
    PerformCommandAfterRender(config, process, inline, i18n, request, newClient, execute, closeFailure, raw);
  }

  /** Any HTTP response counts as success: two exchanges that differ only in status line end the same way. */
  lemma StatusNeverInspected(client: Client, post: HttpPost, closeFailure: Option<IoFailure>,
                             s1: int, s2: int, reason1: JString, reason2: JString, entity: Result<string, IoFailure>)
    ensures var e1 := (c: Client, p: HttpPost) => Ok(Response(s1, reason1, entity));
      var e2 := (c: Client, p: HttpPost) => Ok(Response(s2, reason2, entity));
      SendAndClose(client, post, e1, closeFailure) == SendAndClose(client, post, e2, closeFailure)
  {
  }

  /** An IOException from `execute` leaves the newly built client unclosed. */
  lemma ClientLeaksWhenExecuteFails(client: Client, post: HttpPost, execute: Execute, closeFailure: Option<IoFailure>)
    requires execute(client, post).Err?
    ensures CloseClient(client) !in SendAndClose(client, post, execute, closeFailure).calls
    ensures SendAndClose(client, post, execute, closeFailure).result == Fail(execute(client, post).error)
  {
  }

  /**
   * A failed send carries the exception actually thrown: `execute`'s, else the entity read's,
   * else the close's. The command localizes that exception's message.
   */
  lemma SendAndCloseFailures(client: Client, post: HttpPost, execute: Execute, closeFailure: Option<IoFailure>)
    ensures var r := SendAndClose(client, post, execute, closeFailure);
      && (execute(client, post).Err? ==> r.result == Fail(execute(client, post).error))
      && (execute(client, post).Ok? && execute(client, post).value.entity.Err? ==>
            r.result == Fail(execute(client, post).value.entity.error))
      && (execute(client, post).Ok? && execute(client, post).value.entity.Ok? && closeFailure.Some? ==>
            r.result == Fail(closeFailure.value))
  {
  }

  /** Both export flows fail with the exception their send threw. */
  lemma ExportFailuresCarryThrown(config: Config, html: string, params: map<string, seq<string>>,
                                  newClient: Client, execute: Execute, closeFailure: Option<IoFailure>)
    ensures TemplateParamsPresent(params) ==>
      var post := TemplatePost(config, html, params);
      var r := ExportAsTemplate(config, html, params, newClient, execute, closeFailure);
      && (execute(newClient, post).Err? ==> r.result == Fail(execute(newClient, post).error))
      && (execute(newClient, post).Ok? && execute(newClient, post).value.entity.Err? ==>
            r.result == Fail(execute(newClient, post).value.entity.error))
      && (execute(newClient, post).Ok? && execute(newClient, post).value.entity.Ok? && closeFailure.Some? ==>
            r.result == Fail(closeFailure.value))
    ensures MessageParamsPresent(params) ==>
      var post := MessagePost(config, html, params);
      var r := ExportAsMessage(config, html, params, newClient, execute, closeFailure);
      && (execute(newClient, post).Err? ==> r.result == Fail(execute(newClient, post).error))
      && (execute(newClient, post).Ok? && execute(newClient, post).value.entity.Err? ==>
            r.result == Fail(execute(newClient, post).value.entity.error))
      && (execute(newClient, post).Ok? && execute(newClient, post).value.entity.Ok? && closeFailure.Some? ==>
            r.result == Fail(closeFailure.value))
  {
    if TemplateParamsPresent(params) {
      SendAndCloseFailures(newClient, TemplatePost(config, html, params), execute, closeFailure);
    }
    if MessageParamsPresent(params) {
      SendAndCloseFailures(newClient, MessagePost(config, html, params), execute, closeFailure);
    }
  }
}

=== FILE: payloads.dfy ===
/**
 * The two JSON payload shapes the exports send, built as org.json builds them,
 * with decoders that read the fields back.
 */
module Payloads {
  import opened Wrappers
  import opened JavaLang
  import opened Json

  const TEMPLATE_TYPE := "email_html"
  const BRANDING_PRESET_ID := "56376772-9294-4d87-a781-ed27434ad64c"
  const DEFAULT_VARIANT := "default"

  /** What a template export carries; name and description are nullable request values. */
  datatype TemplateFields = TemplateFields(name: JString, description: JString, html: string)

  /** What a message export carries; every value comes from a present request parameter. */
  datatype MessageFields = MessageFields(
    name: string, subject: string, senderName: string, senderAddress: string, html: string)

  /** The keys a template payload holds: `type` and `template` always, `name` and `description` unless null. */
  function TemplateKeys(f: TemplateFields): set<string>
  {
    {"type", "template"}
      + (if f.name.Str? then {"name"} else {})
      + (if f.description.Str? then {"description"} else {})
  }

  /** `{name, description, type: "email_html", template: {html}}`, with null members dropped by `put`. */
  function TemplatePayload(f: TemplateFields): (j: Json)
    ensures j.JObj? && j.fields.Keys == TemplateKeys(f)
    ensures j.fields["type"] == JStr(TEMPLATE_TYPE)
    ensures j.fields["template"] == JObj(map["html" := JStr(f.html)])
    ensures f.name.Str? ==> j.fields["name"] == JStr(f.name.value)
    ensures f.description.Str? ==> j.fields["description"] == JStr(f.description.value)
  {
    var templateHtml := PutString(map[], "html", Str(f.html));
    var template := PutString(PutString(map[], "name", f.name), "description", f.description);
    JObj(template["type" := JStr(TEMPLATE_TYPE)]["template" := JObj(templateHtml)])
  }

  /** Reads a template payload back; `None` for anything that is not one. */
  function ParseTemplate(j: Json): Option<TemplateFields>
  {
    if !j.JObj? then None
    else
      var m := j.fields;
      if !(m.Keys <= {"name", "description", "type", "template"}) then None
      else if "type" !in m || m["type"] != JStr(TEMPLATE_TYPE) then None
      else if "template" !in m || !m["template"].JObj? then None
      else
        var t := m["template"].fields;
        if t.Keys != {"html"} || !t["html"].JStr? then None
        else
          match (GetString(m, "name"), GetString(m, "description"))
          case (Some(n), Some(d)) => Some(TemplateFields(n, d, t["html"].s))
          case _ => None
  }

  /** Building then reading a template payload gives back every field, null ones included. */
  lemma TemplateRoundTrip(f: TemplateFields)
    ensures ParseTemplate(TemplatePayload(f)) == Some(f)
  {
    var m := TemplatePayload(f).fields;
    assert GetString(m, "name") == Some(f.name);
    assert GetString(m, "description") == Some(f.description);
  }

  /** Every document that reads as a template payload is the payload built from what it reads as. */
  lemma TemplatePayloadComplete(j: Json)
    requires ParseTemplate(j).Some?
    ensures TemplatePayload(ParseTemplate(j).value) == j
  {
    var f := ParseTemplate(j).value;
    var m := j.fields;
    var b := TemplatePayload(f).fields;
    assert m["template"].fields == map["html" := JStr(f.html)];
    forall k | k in m
      ensures k in b && b[k] == m[k]
    {
      if k == "name" {
        assert GetString(m, "name") == Some(f.name);
      } else if k == "description" {
        assert GetString(m, "description") == Some(f.description);
      }
    }
    assert b.Keys == m.Keys by {
      assert GetString(m, "name") == Some(f.name);
      assert GetString(m, "description") == Some(f.description);
    }
  }

  /** `html: {body}` of the single email variant. */
  function Variant(f: MessageFields): Json
  {
    JObj(map[
      "name" := JStr(DEFAULT_VARIANT),
      "subject" := JStr(f.subject),
      "senderName" := JStr(f.senderName),
      "senderAddress" := JStr(f.senderAddress),
      "html" := JObj(map["body" := JStr(f.html)])])
  }

  /**
   * `{name, brandingPresetId, channels: {email: {variants: [variant]}}}` with the fixed
   * branding preset and one variant named "default".
   */
  function MessagePayload(f: MessageFields): (j: Json)
    ensures j.JObj? && j.fields.Keys == {"name", "brandingPresetId", "channels"}
    ensures j.fields["name"] == JStr(f.name)
    ensures j.fields["brandingPresetId"] == JStr(BRANDING_PRESET_ID)
    ensures Variants(j) == Some([Variant(f)])
  {
    var emailHtml := PutString(map[], "body", Str(f.html));
    var emailVariant := PutString(PutString(PutString(PutString(map[],
      "name", Str(DEFAULT_VARIANT)), "subject", Str(f.subject)),
      "senderName", Str(f.senderName)), "senderAddress", Str(f.senderAddress))["html" := JObj(emailHtml)];
    var emailChannel := map["variants" := JArr([JObj(emailVariant)])];
    var channels := map["email" := JObj(emailChannel)];
    var message := PutString(PutString(map[], "name", Str(f.name)), "brandingPresetId", Str(BRANDING_PRESET_ID));
    var r := JObj(message["channels" := JObj(channels)]);
    assert emailVariant == Variant(f).fields;
    r
  }

  /** `channels.email.variants` of a document, when that path leads to an array. */
  function Variants(j: Json): Option<seq<Json>>
  {
    if j.JObj? && "channels" in j.fields && j.fields["channels"].JObj?
      && "email" in j.fields["channels"].fields && j.fields["channels"].fields["email"].JObj?
      && "variants" in j.fields["channels"].fields["email"].fields
      && j.fields["channels"].fields["email"].fields["variants"].JArr?
    then Some(j.fields["channels"].fields["email"].fields["variants"].items)
    else None
  }

  /** The single variant is named "default" and carries the subject, the sender and the HTML body. */
  lemma MessageHasOneDefaultVariant(f: MessageFields)
    ensures var vs := Variants(MessagePayload(f)).value;
      |vs| == 1 && vs[0].JObj?
      && vs[0].fields.Keys == {"name", "subject", "senderName", "senderAddress", "html"}
      && vs[0].fields["name"] == JStr(DEFAULT_VARIANT)
      && vs[0].fields["html"] == JObj(map["body" := JStr(f.html)])
  {
  }

  /** Reads a message payload back; `None` for anything that is not one. */
  function ParseMessage(j: Json): Option<MessageFields>
  {
    if !j.JObj? || j.fields.Keys != {"name", "brandingPresetId", "channels"} then None
    else if !j.fields["name"].JStr? || j.fields["brandingPresetId"] != JStr(BRANDING_PRESET_ID) then None
    else match Variants(j)
      case Some(vs) =>
        if j.fields["channels"] != JObj(map["email" := JObj(map["variants" := JArr(vs)])]) then None
        else if |vs| != 1 || !vs[0].JObj? then None
        else
          var v := vs[0].fields;
          if v.Keys != {"name", "subject", "senderName", "senderAddress", "html"} then None
          else if v["name"] != JStr(DEFAULT_VARIANT) || !v["subject"].JStr? || !v["senderName"].JStr?
            || !v["senderAddress"].JStr? then None
          else if !v["html"].JObj? || v["html"].fields.Keys != {"body"} || !v["html"].fields["body"].JStr? then None
          else Some(MessageFields(j.fields["name"].s, v["subject"].s, v["senderName"].s,
                                  v["senderAddress"].s, v["html"].fields["body"].s))
      case None => None
  }

  /** Building then reading a message payload gives back every field. */
  lemma MessageRoundTrip(f: MessageFields)
    ensures ParseMessage(MessagePayload(f)) == Some(f)
  {
    var j := MessagePayload(f);
    assert Variants(j) == Some([Variant(f)]);
  }

  /** Every document that reads as a message payload is the payload built from what it reads as. */
  lemma MessagePayloadComplete(j: Json)
    requires ParseMessage(j).Some?
    ensures MessagePayload(ParseMessage(j).value) == j
  {
    var f := ParseMessage(j).value;
    var vs := Variants(j).value;
    var v := vs[0].fields;
    assert v["html"].fields == map["body" := JStr(f.html)];
    assert v == Variant(f).fields;
    assert vs == [Variant(f)];
    assert j.fields == MessagePayload(f).fields;
  }
}

=== FILE: rendering.dfy ===
/** The internal render request each generation builds, and the two foreign collaborators that serve it. */
module Rendering {
  import opened Wrappers
  import opened JavaLang
  import opened Sling

  /** The WCM authoring modes a request can carry. */
  datatype WcmMode = Disabled | Edit | Preview | Design

  /**
   * A render request after the pipeline has prepared it: method, URI and parameters
   * as passed to `RequestResponseFactory.createRequest`, the WCM mode put on the request,
   * and the character encoding set on the paired response.
   */
  datatype RenderRequest = RenderRequest(
    verb: string,
    uri: string,
    params: map<string, string>,
    wcmMode: WcmMode,
    responseEncoding: string)

  const HTML_EXTENSION := ".html"
  const UTF_8 := "UTF-8"

  /** `SlingRequestProcessor.processRequest`, a foreign call: the captured response body, or a failure. */
  type Processor = (RenderRequest, ResourceResolver) -> Result<string, ProcessFailure>

  /** `StylesInlinerService.getHtmlWithInlineStyles`, a foreign call that declares no checked exception. */
  type Inliner = (ResourceResolver, string) -> string

  /** The anonymous-view GET for a page: `path + ".html"`, no parameters, WCM disabled, UTF-8 response. */
  function PageRequest(path: JString): (r: RenderRequest)
    ensures r.verb == "GET"
    ensures r.uri == Concat("", path) + HTML_EXTENSION
    ensures r.params == map[]
    ensures r.wcmMode == Disabled
    ensures r.responseEncoding == UTF_8
  {
    RenderRequest("GET", Text(path) + HTML_EXTENSION, map[], Disabled, UTF_8)
  }

  /** Distinct non-null page paths produce distinct render requests. */
  lemma PageRequestInjective(a: string, b: string)
    requires PageRequest(Str(a)) == PageRequest(Str(b))
    ensures a == b
  {
    var u := PageRequest(Str(a)).uri;
    assert a == u[..|u| - |HTML_EXTENSION|];
  }

  /** `path + ".html"` cannot tell a null path from the path "null": both render "null.html". */
  lemma PageRequestCannotTellNull()
    ensures PageRequest(Null) == PageRequest(Str("null"))
    ensures PageRequest(Null).uri == "null.html"
  {
  }
}

=== FILE: sling.dfy ===
/** The host request the WCM command receives, reduced to what the commands read from it. */
module Sling {
  import opened JavaLang

  /** An opaque resource-resolver session; only its identity matters to the pipeline. */
  datatype ResourceResolver = ResourceResolver(id: nat)

  /** A WCM command's request: its parameter map and the caller's resolver. */
  datatype SlingRequest = SlingRequest(params: map<string, seq<string>>, resolver: ResourceResolver)

  /** `ServletRequest.getParameter`: the first value of the parameter, or null when it is absent. */
  function GetParameter(request: SlingRequest, name: string): (r: JString)
    ensures r.Null? <==> name !in request.params || |request.params[name]| == 0
    ensures r.Str? ==> r.value == request.params[name][0]
  {
    if name in request.params && |request.params[name]| > 0 then Str(request.params[name][0]) else Null
  }

  /** `requestParams.get(name)[0]` is defined: the parameter is present with at least one value. */
  predicate HasParameter(params: map<string, seq<string>>, name: string)
  {
    name in params && |params[name]| > 0
  }

  /** `I18n.get(request, text)`, a foreign call that localizes a message for the request. */
  type Localizer = (SlingRequest, JString) -> JString
}

=== FILE: trace.dfy ===
/** The calls a pipeline step makes on its collaborators, recorded in order. */
module Trace {
  import opened JavaLang
  import opened Sling
  import opened Http
  import opened Rendering

  /** One call on a collaborator. */
  datatype Call =
    | ProcessRequest(request: RenderRequest, resolver: ResourceResolver)
    | InlineStyles(resolver: ResourceResolver, html: string)
    | ConnectorCreateTemplate(name: JString, description: JString, content: string)
    | ExportTemplate(name: JString, description: JString, path: JString, resolver: ResourceResolver)
    | Execute(client: Client, post: HttpPost)
    | CloseClient(client: Client)

  /** What a step did: the collaborator calls it made, and how it ended. */
  datatype Run<+T> = Run(calls: seq<Call>, result: T)
}

=== FILE: wrappers.dfy ===
/** Failure-carrying values used in place of Java's `null` references and exceptions. */
module Wrappers {

  /** A value that may be absent. */
  datatype Option<+T> = None | Some(value: T)

  /** The value of a computation that either returns normally or raises an error. */
  datatype Result<+T, +E> = Ok(value: T) | Err(error: E)

  /** The outcome of a `void` Java method: it returns normally or raises an error. */
  datatype Outcome<+E> = Pass | Fail(error: E)
}
